=== FILE: README.md ===
# Name manager: a Dafny model of the rename, hierarchy and mirror handlers

The name manager is a floating tool window for a 3D rigging application. A
rigger types a mesh name, picks a side, a kinematic tag and an object type,
selects scene objects and clicks a naming button. Every selected object is then
renamed `mesh + side + token + type + kinematic + "_" + index`. The indices
are meant to lie above those already in use (docstring, lines 113-114). The
scan as written misses every name the tool made from the same base name, though (see Findings).
Two more buttons build an empty rig group hierarchy and mirror a left joint
chain to the right.

This project models the pure decision logic of the controller
(`NameManagerController.py`, class `NameManagerDialog`). Each handler is a
function from the values it reads to what it asks the host application to do:

- `Naming`: the naming state and the combo-box and radio-button handlers
  (`set_side`, `set_kinematic`, `set_object_type`).
- `Rename`: `rename_object`, as the list of `cmds.rename` calls it issues, or
  the warning it shows, or the `ValueError` it raises.
- `Hierarchy`: `create_hierarchy`, as the list of `cmds.group` calls.
- `Mirror`: `mirror_and_rename`, as the `cmds.mirrorJoint` call it makes, if any.
- `Wiring`: which handlers a push button's click runs (`__init__`).
- `PyText`, `PyStrip`, `PyInt`, `PyOrder`, `PyList`: the Python builtins the
  handlers use, with the semantics of Python 2.7, the language of the source
  (the `print` statement at line 139):
  - `in`, `replace`, `split`, `strip(chars)`;
  - `int()` and `str()`;
  - `list.sort(reverse=True)`;
  - `range`, `reversed`, `zip`.
- `Outcomes`: `Option` and `Outcome`. `Outcome` is a warning, a raised
  exception, or a value.
- `Scenarios`: concrete clicks worked through end to end.

Host queries become parameters:
- `cmds.ls(sl=True, l=True)` is `selection`.
- `cmds.ls()` is `scene`.
- `cmds.objExists` is membership in `scene`.
- `cmds.objectType` is `types`.
- The text fields are `meshText` and `customText`.

Two details of the code:
- `create_hierarchy` makes nine groups, `_main` and eight under it
  (lines 70-78).
- `mirror_and_rename` mirrors across the YZ plane (`myz=True`, line 56),
  where its docstring (line 48) says YX. The model follows line 56.

The index scan at lines 131-138 is modelled twice, because it does not do what
it evidently means to (see Findings):
- `StripScan` follows the code as written.
- `ExactScan` is the corrected tokenizer.

`Rename.RenamePlan` takes the scan as a parameter:
- `Rename.RenamePlanTargets`, `Rename.RenamePlanShape` and
  `Rename.RenamePlanNamesDistinct` hold for both scans.
- `Rename.StripPlanRaisesIff` is about the scan as written.
- The freshness guarantee `Rename.ExactPlanAvoidsScene` is about the corrected
  scan. The scan as written gives no such guarantee.

## Model

| member | source | states |
|---|---|---|
| `Naming.SetSide` | NameManagerController.py:95-97 | "None" gives no side code; any other non-empty text gives `_` and its first character; an empty text raises, and only it |
| `Naming.SetSideLabels` | NameManagerController.py:95-97 | the texts "Left", "Right" and "None" give "_L", "_R" and no code |
| `Naming.SetKinematic` | NameManagerController.py:86-89 | "None" gives "", "Inverse" gives "_IK", and every other text gives "_FK", each in both directions |
| `Naming.SetObjectType` | NameManagerController.py:105-108 | the type is the name with every "radio_btn" removed, except that a result of "_null" becomes no type; so the type is never "_null" |
| `Naming.SetObjectTypeOfRadio` | NameManagerController.py:105-106 | a radio button named "radio_btn" + t gives type t, and no type when t is "_null" |
| `Naming.SetObjectTypePlain` | NameManagerController.py:105-108 | a name without "radio_btn" that is not "_null" becomes the type unchanged |
| `Naming.Apply` | NameManagerController.py:36-43 | each event changes only its own field; a side change to an empty text changes nothing; a kinematic change always yields one of the three tags |
| `Naming.ApplyAllKeepsLatest` | NameManagerController.py:36-43 | after any run of events, each field holds what the latest event of its kind that assigns it produced, or its starting value |
| `PyText.ContainsIff` | NameManagerController.py:126 | `p in s` holds exactly when `p` occurs at some index of `s` |
| `PyText.ReplaceLength` | NameManagerController.py:127 | `replace` changes the length by the count of non-overlapping occurrences times the length difference |
| `PyText.ReplaceAbsent` | NameManagerController.py:127 | `replace` leaves a string without the pattern unchanged |
| `PyText.ReplaceSelf` | NameManagerController.py:127 | replacing a pattern by itself gives back the string: `replace` changes only the occurrences it finds |
| `PyText.ReplaceCanLeavePattern` | NameManagerController.py:105 | removing "radio_btn" from "radradio_btnio_btn" leaves "radio_btn": one pass of `replace` need not remove every occurrence |
| `PyText.Split` | NameManagerController.py:133 | `split` gives at least one piece, no piece holds the separator, and joining the pieces gives back the string |
| `PyText.LastTokenShape` | NameManagerController.py:133-134 | `split('_')[-1]` is the suffix after the last underscore, or the whole string when it has none |
| `PyText.LastTokenAfter` | NameManagerController.py:135-136 | whatever precedes a last underscore, the text after it is the last token |
| `PyStrip.Strip` | NameManagerController.py:134 | `strip(chars)` never lengthens; it either empties a string made only of those characters or leaves both ends outside the set |
| `PyStrip.StripUnique` | NameManagerController.py:134 | reference definition of `strip`: the slice whose outside lies wholly in the set and whose ends do not is the result |
| `PyInt.ParseInt` | NameManagerController.py:136 | `int()` succeeds exactly on a run of digits with an optional sign |
| `PyInt.NatToStringDigits` | NameManagerController.py:143 | `str(n)` is all digits, denotes `n`, and has no leading zero unless `n` is 0 |
| `PyInt.ParseIntToString` | NameManagerController.py:136-143 | `int(str(i)) == i` for every integer |
| `PyInt.IntToStringHasNoUnderscore` | NameManagerController.py:143 | `str(i)` holds no underscore, so it is a whole `_`-token |
| `PyOrder.LeCommonPrefix` | NameManagerController.py:122 | a common prefix does not change how two strings compare |
| `PyOrder.SortDesc` | NameManagerController.py:121-122 | `sort(reverse=True)` returns a permutation of the list whose neighbours never increase |
| `PyOrder.SortedDescUnique` | NameManagerController.py:122 | two descending arrangements of one multiset are equal, so the sort result is fully determined |
| `PyList.Range` | NameManagerController.py:140 | `range(lo, hi)` lists `lo`, `lo + 1`, and so on below `hi`, and is empty when `hi <= lo` |
| `PyList.Reverse` | NameManagerController.py:140 | `reversed` keeps the length and reads the list from the end |
| `PyList.Zip` | NameManagerController.py:142 | `zip` pairs elements index by index up to the shorter length |
| `Rename.ObjectToken` | NameManagerController.py:126-127 | a button whose name holds "apply" contributes "_" + the custom text; any other button contributes its name shortened by three characters per "btn" removed |
| `Rename.ObjectTokenCases` | NameManagerController.py:126-127 | a button whose name holds "apply" contributes "_" + the custom text; a name with neither marker is used as it is |
| `Rename.ObjectTokenOfButton` | NameManagerController.py:127 | a naming button "btn" + t contributes t |
| `Rename.CompositeName` | NameManagerController.py:129 | the base name starts with the mesh name, ends with the kinematic tag, and is as long as its five parts together |
| `Rename.ClickComposite` | NameManagerController.py:126-129 | a click's base name starts with the mesh text; for the custom-name button it is built from "_" + the custom text |
| `Rename.NewName` | NameManagerController.py:143 | a new name is the base name, an underscore, and a non-empty tail holding no underscore |
| `Rename.NewNameRoundTrip` | NameManagerController.py:136-143 | `int(name.split('_')[-1])` on a name made at line 143 gives back its index |
| `Rename.NewNameInjective` | NameManagerController.py:143 | two indices give the same new name only when they are equal |
| `Rename.MaxCountedRaisesIff` | NameManagerController.py:131-138 | folding the probes raises exactly when some probe is unparsable |
| `Rename.MaxCountedBounds` | NameManagerController.py:131-138 | a successful fold is at least every counted index |
| `Rename.MaxCountedAttained` | NameManagerController.py:131-138 | a non-zero fold result is one of the counted indices |
| `Rename.ScanAsWritten` | NameManagerController.py:131-138 | the scan as written never warns, and a successful scan is never below the seeded 0 |
| `Rename.ScanAsWrittenRaisesIff` | NameManagerController.py:131-138 | the scan as written raises `ValueError` exactly when a name passes the strip test but its last token is not an integer |
| `Rename.ScanAsWrittenBounds` | NameManagerController.py:131-138 | `max_index` is at least the index of every name that passes the strip test |
| `Rename.ScanAsWrittenAttained` | NameManagerController.py:131-138 | a non-zero `max_index` is the index of some name that passes the strip test |
| `Rename.StripOfLastToken` | NameManagerController.py:133-134 | what the strip test compares with the base name is always empty or ends in `_` |
| `Rename.StripScanNeedsUnderscore` | NameManagerController.py:131-138 | for a non-empty base name not ending in `_`, the scan as written finds 0 in every scene |
| `Rename.StripScanMissesNewName` | NameManagerController.py:134-143 | the strip test never matches a name this handler produced from the same base name |
| `Rename.StripScanCountsShorterBase` | NameManagerController.py:131-143 | a base name ending in `_` matches, and reads the index of, the name made from the base one `_` shorter, unless that shorter base starts with a character of the index |
| `Rename.ExactIndexOfNewName` | NameManagerController.py:143 | the corrected tokenizer reads back the index of every name this handler produces |
| `Rename.ScanExact` | NameManagerController.py:131-138 | the corrected scan is at least the index of every `base + "_" + digits` name in the scene, and unless it is 0 it is one of those indices |
| `Rename.MaxIndex` | NameManagerController.py:131-138 | the scan is never negative, never a warning, and only the as-written scan can raise |
| `Rename.IndexBlockCountsDown` | NameManagerController.py:140 | `reversed(range(m+1, m+n+1))` holds `n` indices, `m+n` down to `m+1`, all above `m` and strictly decreasing |
| `Rename.Assign` | NameManagerController.py:142-143 | the k-th target is paired with base and index `m + n - k` |
| `Rename.RenamePlan` | NameManagerController.py:117-147 | empty mesh text warns; an empty selection warns; otherwise it raises exactly when the scan raises, and a plan has one call per selected object |
| `Rename.FinishShape` | NameManagerController.py:140-143 | a successful finish renames the targets in order, the k-th with base `composite` and index `max_index + n - k` |
| `Rename.RenamePlanTargets` | NameManagerController.py:121-122 | a plan renames exactly the selected objects, greatest name first: a permutation, sorted descending, equal to the sort |
| `Rename.RenamePlanShape` | NameManagerController.py:138-143 | in a plan the k-th object gets index `max_index + len(selection) - k` on the click's base name |
| `Rename.BlockNamesDistinct` | NameManagerController.py:140-143 | names drawn from one block of indices are pairwise different |
| `Rename.RenamePlanNamesDistinct` | NameManagerController.py:140-143 | no two objects of one click get the same name |
| `Rename.StripPlanRaisesIff` | NameManagerController.py:134-136 | with the as-written scan, a click that passes the guards raises exactly when a matching name has a non-integer last token |
| `Rename.BlockAboveAvoidsScene` | NameManagerController.py:140-143 | names from a block above every recognised index are absent from the scene |
| `Rename.ExactPlanAvoidsScene` | NameManagerController.py:130-143 | with the corrected scan no new name already exists in the scene |
| `Hierarchy.CreateHierarchy` | NameManagerController.py:66-80 | an existing `mesh_main` warns first, even for an empty mesh name; otherwise an empty name warns; otherwise nine groups with `mesh_main` first and parentless |
| `Hierarchy.LayoutParentsPrecede` | NameManagerController.py:70-78 | every group but the first names as parent a group created before it |
| `Hierarchy.CreatedGroupsFormTree` | NameManagerController.py:70-78 | the groups form a tree rooted at `mesh_main`: every parent is created earlier and all names differ |
| `Hierarchy.CreatedRigLayout` | NameManagerController.py:70-78 | the calls are exactly the nine groups of lines 70-78 in order, each with its parent: four under main, joints, IK and controls under global scale, and global scale under global control |
| `Hierarchy.CreateHierarchyOnce` | NameManagerController.py:67-68 | a second click after the groups exist only warns "Group already exists" |
| `Mirror.MirrorAndRename` | NameManagerController.py:52-58 | an empty selection warns, and only it; the whole selection is mirrored across YZ with `_L_` renamed to `_R_` exactly when its first object is a joint |
| `Mirror.MirrorChecksOnlyFirst` | NameManagerController.py:55 | the decision depends only on the first object's type |
| `Mirror.MirrorPassesNonJoints` | NameManagerController.py:54-56 | a non-joint after a leading joint is passed to the mirror too |
| `Wiring.Handlers` | NameManagerController.py:27-33 | a button renames exactly when its name has neither "mirror" nor "hierarchy"; it builds exactly for `btn_create_hierarchy` and mirrors exactly for `btn_mirror` |
| `Wiring.SpecialButtonsAreNotNaming` | NameManagerController.py:29-33 | the two special buttons fail the naming-button test |
| `Wiring.AtMostOneHandler` | NameManagerController.py:28-33 | every click runs at most one handler |
| `Wiring.OtherSpecialNamesAreDead` | NameManagerController.py:28-33 | any other button named with "mirror" or "hierarchy" is connected to nothing |
| `Scenarios.ArmJointComposite` | NameManagerController.py:126-129 | mesh "arm" with button "btn_jnt" and no side, type or tag gives base name "arm_jnt" |
| `Scenarios.ThreeJointsSorted` | NameManagerController.py:121-122 | the selection joint1, joint3, joint2 sorts to joint3, joint2, joint1 |
| `Scenarios.StripScanSeesNothing` | NameManagerController.py:131-138 | the as-written scan for "arm_jnt" is 0 in every scene, even one holding "arm_jnt_5" |
| `Scenarios.ExactScanSeesFive` | NameManagerController.py:131-138 | the corrected scan reads 5 from "arm_jnt_5" |
| `Scenarios.ScenarioNames` | NameManagerController.py:143 | the indices 1, 2, 3, 6 and 7 give "arm_jnt_1", "arm_jnt_2", "arm_jnt_3", "arm_jnt_6" and "arm_jnt_7" |
| `Scenarios.FreshSceneClick` | NameManagerController.py:118-143 | three joints in any scene where no name is "arm_jnt_" followed by digits get indices 3, 2 and 1, greatest name first, under either scan |
| `Scenarios.ExactClickAfterFive` | NameManagerController.py:118-143 | with "arm_jnt_5" present, the corrected scan gives two joints indices 7 and 6 |
| `Scenarios.StripClickAfterFive` | NameManagerController.py:118-143 | with "arm_jnt_5" present, the scan as written gives them 2 and 1, as if the scene were empty |

## Left out

- The window, the generated UI classes, `maya_main_window` and the module-level
  `show` (lines 1-20 and 150-151) are Qt and host plumbing. Only the wiring
  they set up is modelled.
- The effects of `cmds.rename`, `cmds.group` and `cmds.mirrorJoint` are
  outside the model, which stops at the calls the handlers issue. Out of scope
  with them:
  - the host renaming an object again to avoid a clash;
  - the host failing a rename of an already renamed long path;
  - how `mirrorJoint` applies its search and replace.
- `cmds.objExists` is modelled as membership in a list of names. The host's
  treatment of paths and wildcards is left out.
- The `print` of `max_index` at line 139 is output only.
- `Naming.SetObjectType`: it does not model the order in which Qt emits
  `toggled` for the unchecked and the newly checked radio button. Both reach
  the handler, because the handler ignores the status argument.
  `Naming.ApplyAllKeepsLatest` is stated for whatever order the events arrive in.
- `PyInt.ParseInt`: it accepts only an optional sign followed by ASCII digits.
  Python 2.7's `int()` also skips surrounding whitespace and, for `unicode`
  text, accepts other Unicode decimal digits. Host object names hold no
  whitespace.
- `Wiring.Handlers`: it decides by object name alone. Three assumptions come
  with that:
  - the attributes `self.ui.btn_create_hierarchy` and `self.ui.btn_mirror`
    (lines 32-33) are the buttons of those object names;
  - every push button lies under `centralwidget`, the only widget line 27
    searches;
  - the `checked` argument of `clicked` does not displace the lambda's `name`
    default at line 30.
- `Rename.RenamePlan`: it does not model an exception from the host during the
  rename loop, which would leave the earlier renames in place.

## Findings

| source | as written | input that shows it | evidently intended | confidence | as-written member | corrected member |
|---|---|---|---|---|---|---|
| NameManagerController.py:134 | `composite_name == o.strip(o_parts[-1])` strips the CHARACTERS of the last token from both ends of the name. For a name `composite + "_" + digits` this leaves `composite + "_"`, possibly less some leading digits, and never `composite`. So no name the tool made from the same base name is ever counted, and for a base name that does not end in `_` the scan stays at 0 in every scene. Conversely, a base name ending in `_` (a custom text ending in `_`, with the apply button) counts the names made from the base one `_` shorter: `"arm_1".strip("1")` is `"arm_"` (`Rename.StripScanCountsShorterBase`) | mesh "arm", button "btn_jnt", scene ["arm_jnt_5"], two selected joints: the new names are "arm_jnt_2" and "arm_jnt_1" (`Scenarios.StripClickAfterFive`) | read the index of every `composite + "_" + digits` name, so that the two joints get 7 and 6 and no new name collides with an existing one (`Scenarios.ExactClickAfterFive`) | high; not executed | `Rename.StripScanMissesNewName` | `Rename.ExactPlanAvoidsScene` |

=== FILE: hierarchy.dfy ===
/** `create_hierarchy` (NameManagerController.py:61-80): the empty groups one
    click asks the host to create for a rig, each named by the mesh name and a
    fixed suffix and parented under an earlier one. */
module Hierarchy {
  import opened Outcomes

  /** One intended `cmds.group(n=name, em=True[, p=parent])`. */
  datatype GroupCall = GroupCall(name: string, parent: Option<string>)

  const ExistsWarning := "Group already exists"
  const NoMeshWarning := "Please select a mesh name"

  /** The suffix of each group and the suffix of its parent, in creation order
      (lines 70-78). */
  const Layout: seq<(string, Option<string>)> := [
    ("_main", None),
    ("_global_control", Some("_main")),
    ("_extra_nodes", Some("_main")),
    ("_global_blendshapes", Some("_main")),
    ("_global_geo", Some("_main")),
    ("_global_scale", Some("_global_control")),
    ("_joints", Some("_global_scale")),
    ("_IK", Some("_global_scale")),
    ("_controls", Some("_global_scale"))
  ]

  /** A layout entry with the mesh name put in front of both suffixes. */
  function Qualify(mesh: string, entry: (string, Option<string>)): GroupCall {
    GroupCall(mesh + entry.0,
              match entry.1
              case None => None
              case Some(p) => Some(mesh + p))
  }

  /** `create_hierarchy`: `mesh` is the mesh-name field's text and `scene` the
      names `cmds.objExists` reports as existing. The existence test comes
      first, so an existing "_main" wins even over an empty mesh name. */
  function CreateHierarchy(mesh: string, scene: seq<string>): (r: Outcome<seq<GroupCall>>)
    ensures mesh + "_main" in scene ==> r == Warning(ExistsWarning)
    ensures mesh + "_main" !in scene && mesh == "" ==> r == Warning(NoMeshWarning)
    ensures r.Ok? <==> mesh + "_main" !in scene && mesh != ""
    ensures !r.Raised?
    ensures r.Ok? ==> |r.value| == 9 && r.value[0] == GroupCall(mesh + "_main", None)
  {
    if mesh + "_main" in scene then Warning(ExistsWarning)
    else if mesh != "" then Ok(seq(|Layout|, k requires 0 <= k < |Layout| => Qualify(mesh, Layout[k])))
    else Warning(NoMeshWarning)
  }

  /** The calls of a successful click, one per layout entry. */
  lemma CreatedCalls(mesh: string, scene: seq<string>)
    requires CreateHierarchy(mesh, scene).Ok?
    ensures forall k :: 0 <= k < 9 ==> CreateHierarchy(mesh, scene).value[k] == Qualify(mesh, Layout[k])
  {
  }

  /** Every group but the first names a parent created before it. */
  lemma LayoutParentsPrecede()
    ensures Layout[0].1 == None
    ensures forall k :: 1 <= k < |Layout| ==>
      Layout[k].1.Some? && exists j :: 0 <= j < k && Layout[j].0 == Layout[k].1.value
  {
    assert Layout[1].1.value == Layout[0].0;
    assert Layout[2].1.value == Layout[0].0;
    assert Layout[3].1.value == Layout[0].0;
    assert Layout[4].1.value == Layout[0].0;
    assert Layout[5].1.value == Layout[1].0;
    assert Layout[6].1.value == Layout[5].0;
    assert Layout[7].1.value == Layout[5].0;
    assert Layout[8].1.value == Layout[5].0;
  }

  /** The suffixes have pairwise different lengths, hence differ. */
  lemma LayoutSuffixesDistinct()
    ensures forall j, k :: 0 <= j < k < |Layout| ==> |Layout[j].0| != |Layout[k].0|
  {
  }

  /** The groups of one click form a tree rooted at the mesh's "_main": the first
      has no parent, every other one's parent is a group created earlier in the
      same click, and no two have the same name. */
  lemma {:induction false} CreatedGroupsFormTree(mesh: string, scene: seq<string>)
    requires CreateHierarchy(mesh, scene).Ok?
    ensures var calls := CreateHierarchy(mesh, scene).value;
      && calls[0].parent == None
      && (forall k :: 1 <= k < |calls| ==>
            calls[k].parent.Some? && exists j :: 0 <= j < k && calls[j].name == calls[k].parent.value)
      && (forall j, k :: 0 <= j < k < |calls| ==> calls[j].name != calls[k].name)
  {
    var calls := CreateHierarchy(mesh, scene).value;
    CreatedCalls(mesh, scene);
    LayoutParentsPrecede();
    LayoutSuffixesDistinct();
    forall k | 1 <= k < |calls|
      ensures calls[k].parent.Some? && exists j :: 0 <= j < k && calls[j].name == calls[k].parent.value
    {
      var j :| 0 <= j < k && Layout[j].0 == Layout[k].1.value;
      assert calls[j].name == calls[k].parent.value;
    }
    forall j, k | 0 <= j < k < |calls|
      ensures calls[j].name != calls[k].name
    {
      assert |calls[j].name| != |calls[k].name|;
    }
  }

  /** The rig's layout, in creation order: four groups under the main group,
      and the joints, IK and controls groups under the global scale group,
      which sits under the global control group. */
  lemma CreatedRigLayout(mesh: string, scene: seq<string>)
    requires CreateHierarchy(mesh, scene).Ok?
    ensures CreateHierarchy(mesh, scene).value == [
      GroupCall(mesh + "_main", None),
      GroupCall(mesh + "_global_control", Some(mesh + "_main")),
      GroupCall(mesh + "_extra_nodes", Some(mesh + "_main")),
      GroupCall(mesh + "_global_blendshapes", Some(mesh + "_main")),
      GroupCall(mesh + "_global_geo", Some(mesh + "_main")),
      GroupCall(mesh + "_global_scale", Some(mesh + "_global_control")),
      GroupCall(mesh + "_joints", Some(mesh + "_global_scale")),
      GroupCall(mesh + "_IK", Some(mesh + "_global_scale")),
      GroupCall(mesh + "_controls", Some(mesh + "_global_scale"))]
  {
    CreatedCalls(mesh, scene);
  }

  /** The names a successful click adds to the scene. */
  function Created(calls: seq<GroupCall>): (names: seq<string>)
    ensures |names| == |calls| && forall k :: 0 <= k < |calls| ==> names[k] == calls[k].name
  {
    seq(|calls|, k requires 0 <= k < |calls| => calls[k].name)
  }

  /** A second click with the same mesh name, once the first click's groups
      exist, only warns: the hierarchy is never built twice. */
  lemma CreateHierarchyOnce(mesh: string, scene: seq<string>)
    requires CreateHierarchy(mesh, scene).Ok?
    ensures CreateHierarchy(mesh, scene + Created(CreateHierarchy(mesh, scene).value)) == Warning(ExistsWarning)
  {
    var added := Created(CreateHierarchy(mesh, scene).value);
    assert (scene + added)[|scene|] == mesh + "_main";
  }
}

=== FILE: mirror.dfy ===
/** `mirror_and_rename` (NameManagerController.py:45-58): the joint mirror one
    click asks the host for. */
module Mirror {
  import opened Outcomes

  /** One intended `cmds.mirrorJoint(joints, myz=True, mb=True, sr=(search, replace))`:
      mirror across the YZ plane, mirror behaviour, and rename the copies by
      replacing `search` with `replace`. */
  datatype MirrorCall = MirrorCall(joints: seq<string>, mirrorYZ: bool, mirrorBehavior: bool,
                                   search: string, replace: string)

  const NoSelectionWarning := "You must select an object"

  /** `mirror_and_rename`: `selection` is what `cmds.ls(sl=True, l=True)`
      returns and `types[k]` what `cmds.objectType` reports for `selection[k]`.
      Only the first object's type is looked at; when it is not a joint the
      click does nothing and says nothing. */
  function MirrorAndRename(selection: seq<string>, types: seq<string>): (r: Outcome<Option<MirrorCall>>)
    requires |types| == |selection|
    ensures r == Warning(NoSelectionWarning) <==> |selection| == 0
    ensures !r.Raised?
    ensures r.Ok? && r.value.Some? <==> |selection| > 0 && types[0] == "joint"
    ensures r.Ok? && r.value.Some? ==> r.value.value.joints == selection
    ensures r.Ok? && r.value.Some? ==>
      r.value.value.search == "_L_" && r.value.value.replace == "_R_" &&
      r.value.value.mirrorYZ && r.value.value.mirrorBehavior
  {
    if |selection| > 0 then
      if types[0] == "joint" then Ok(Some(MirrorCall(selection, true, true, "_L_", "_R_")))
      else Ok(None)
    else Warning(NoSelectionWarning)
  }

  /** The whole selection goes to the mirror once its first object is a joint,
      whatever the other objects are. */
  lemma MirrorChecksOnlyFirst(selection: seq<string>, types: seq<string>, others: seq<string>)
    requires |types| == |selection| == |others| && |selection| > 0
    requires others[0] == types[0]
    ensures MirrorAndRename(selection, others) == MirrorAndRename(selection, types)
  {
  }

  /** A selection that starts with a joint is mirrored even when it holds
      objects of other types. */
  lemma MirrorPassesNonJoints(a: string, b: string)
    ensures var r := MirrorAndRename([a, b], ["joint", "mesh"]);
      r.Ok? && r.value.Some? && b in r.value.value.joints
  {
  }
}

=== FILE: naming.dfy ===
/** The naming state of the dialog (NameManagerController.py:21-23) and the
    three handlers that set it from the side and kinematic combo boxes and the
    object-type radio buttons. */
module Naming {
  import opened Outcomes
  import opened PyText

  /** The three fields the combo boxes and radio buttons write; each keeps the
      value of the last event that set it. */
  datatype NamingState = NamingState(side: string, objectType: string, kinematic: string)

  /** The fields as `__init__` leaves them. */
  const Initial := NamingState("", "", "")

  /** `set_side`: the side code for a side combo-box text, an underscore and the
      text's first character. An empty text other than "None" makes `side[0]`
      raise, before the field is assigned. */
  function SetSide(text: string): (code: Outcome<string>)
    ensures code.Raised? <==> text == ""
    ensures !code.Warning?
    ensures text == "None" ==> code == Ok("")
    ensures text != "None" && text != "" ==> code.Ok? && |code.value| == 2 && code.value[0] == '_' && code.value[1] == text[0]
  {
    if text == "None" then Ok("")
    else if text == "" then Raised("IndexError: string index out of range")
    else Ok("_" + [text[0]])
  }

  /** The two texts the side combo box is meant to offer. */
  lemma SetSideLabels()
    ensures SetSide("Left") == Ok("_L") && SetSide("Right") == Ok("_R") && SetSide("None") == Ok("")
  {
    assert "Left"[0] != "None"[0];
    assert |"Right"| != |"None"|;
    assert "_" + ["Left"[0]] == "_L";
    assert "_" + ["Right"[0]] == "_R";
  }

  /** `set_kinematic`: "None" clears the tag, "Inverse" selects `_IK` and any
      other text selects `_FK`. */
  function SetKinematic(text: string): (code: string)
    ensures code == "" <==> text == "None"
    ensures code == "_IK" <==> text == "Inverse"
    ensures code == "_FK" <==> text != "None" && text != "Inverse"
  {
    if text == "None" then ""
    else if text == "Inverse" then "_IK"
    else "_FK"
  }

  /** `set_object_type`: the radio button's object name with every occurrence of
      "radio_btn" replaced by nothing, the sentinel "_null" read as no type. */
  function SetObjectType(radioName: string): (token: string)
    ensures token != "_null"
    ensures Replace(radioName, "radio_btn", "") != "_null" ==> token == Replace(radioName, "radio_btn", "")
    ensures Replace(radioName, "radio_btn", "") == "_null" ==> token == ""
  {
    var stripped := Replace(radioName, "radio_btn", "");
    if stripped == "_null" then "" else stripped
  }

  /** A name holding neither "radio_btn" nor the sentinel passes through as it is. */
  lemma SetObjectTypePlain(name: string)
    requires !Contains(name, "radio_btn") && name != "_null"
    ensures SetObjectType(name) == name
  {
    ReplaceAbsent(name, "radio_btn", "");
  }

  /** For the usual radio-button naming, "radio_btn" followed by a token that does
      not itself hold "radio_btn", the type is that token, or no type for "_null". */
  lemma SetObjectTypeOfRadio(t: string)
    requires !Contains(t, "radio_btn")
    ensures SetObjectType("radio_btn" + t) == if t == "_null" then "" else t
  {
    ReplaceLeading("radio_btn", t, "");
    ReplaceAbsent(t, "radio_btn", "");
  }

  /** One event from the combo boxes or radio buttons. A radio button's `toggled`
      signal fires on both checking and unchecking, and the handler ignores the
      status, so either direction sets the type from that button's name. */
  datatype UiEvent =
    | SideChanged(text: string)
    | KinematicChanged(text: string)
    | RadioToggled(name: string)

  /** An event that assigns its field: every event but a side change to an
      empty text, whose handler raises first. */
  predicate Assigns(e: UiEvent) {
    !e.SideChanged? || e.text != ""
  }

  /** The handler the event is wired to (NameManagerController.py:38-43). A
      handler that raises leaves the state as it was; Qt reports the exception
      and the dialog carries on. */
  function Apply(s: NamingState, e: UiEvent): (s': NamingState)
    ensures e.SideChanged? ==> s'.objectType == s.objectType && s'.kinematic == s.kinematic
    ensures e.KinematicChanged? ==> s'.side == s.side && s'.objectType == s.objectType
    ensures e.RadioToggled? ==> s'.side == s.side && s'.kinematic == s.kinematic
    ensures !Assigns(e) ==> s' == s
    ensures e.SideChanged? && Assigns(e) ==> |s'.side| == 2 || (e.text == "None" && s'.side == "")
    ensures e.KinematicChanged? ==> s'.kinematic in {"", "_IK", "_FK"}
    ensures s'.objectType != "_null" || s'.objectType == s.objectType
  {
    match e
    case SideChanged(text) =>
      (match SetSide(text)
       case Ok(code) => s.(side := code)
       case _ => s)
    case KinematicChanged(text) => s.(kinematic := SetKinematic(text))
    case RadioToggled(name) => s.(objectType := SetObjectType(name))
  }

  /** The state after a run of events, oldest first. */
  function ApplyAll(s: NamingState, events: seq<UiEvent>): NamingState
    decreases |events|
  {
    if |events| == 0 then s
    else Apply(ApplyAll(s, events[..|events| - 1]), events[|events| - 1])
  }

  /** The most recent event of `events` that `keep` selects. */
  function Latest(events: seq<UiEvent>, keep: UiEvent -> bool): (r: Option<UiEvent>)
    ensures r.Some? ==> keep(r.value) && r.value in events
    ensures r.None? ==> forall k :: 0 <= k < |events| ==> !keep(events[k])
    decreases |events|
  {
    if |events| == 0 then None
    else if keep(events[|events| - 1]) then Some(events[|events| - 1])
    else Latest(events[..|events| - 1], keep)
  }

  /** Each field holds what the latest event of its own kind that assigns it
      made of it, and the starting value when no such event came. */
  lemma {:induction false} ApplyAllKeepsLatest(s: NamingState, events: seq<UiEvent>)
    ensures var t := ApplyAll(s, events);
      && t.side == (match Latest(events, (e: UiEvent) => e.SideChanged? && Assigns(e))
                    case None => s.side
                    case Some(e) => SetSide(e.text).value)
      && t.kinematic == (match Latest(events, (e: UiEvent) => e.KinematicChanged?)
                         case None => s.kinematic
                         case Some(e) => SetKinematic(e.text))
      && t.objectType == (match Latest(events, (e: UiEvent) => e.RadioToggled?)
                          case None => s.objectType
                          case Some(e) => SetObjectType(e.name))
    decreases |events|
  {
    if |events| > 0 {
      ApplyAllKeepsLatest(s, events[..|events| - 1]);
    }
  }
}

=== FILE: outcomes.dfy ===
/** Result shapes shared by the handlers of the name manager dialog.

    A handler never returns a value to its caller; what it does is either show a
    single host warning, die with an uncaught Python exception, or go on to make
    a list of host calls. The model returns that list instead of making the calls.
 */
module Outcomes {

  /** Python's `None` / a present value. */
  datatype Option<+T> = None | Some(value: T)

  /** What one handler invocation amounts to. */
  datatype Outcome<+T> =
    | Warning(message: string)   // exactly one `cmds.warning`, and no scene change
    | Raised(error: string)      // an uncaught exception ends the handler
    | Ok(value: T)               // the host calls the handler goes on to make
}

=== FILE: pyint.dfy ===
/** Python 2.7's `int(text)` and `str(number)` for base-ten integers.

    `ParseInt` accepts an optional sign followed by at least one ASCII digit;
    the surrounding whitespace Python 2.7 also skips, and the other Unicode
    decimal digits it accepts in `unicode` text, are not modelled.
 */
module PyInt {
  import opened Outcomes

  predicate IsDigit(c: char) {
    '0' <= c <= '9'
  }

  predicate AllDigits(s: string) {
    forall k :: 0 <= k < |s| ==> IsDigit(s[k])
  }

  /** The number a run of decimal digits denotes. */
  function DigitsValue(d: string): nat
    requires AllDigits(d)
    decreases |d|
  {
    if |d| == 0 then 0
    else DigitsValue(d[..|d| - 1]) * 10 + (d[|d| - 1] as int - '0' as int)
  }

  /** `int(t)`: `None` stands for the `ValueError` CPython raises. */
  function ParseInt(t: string): (r: Option<int>)
    ensures r.Some? <==>
      || (|t| > 0 && AllDigits(t))
      || (|t| > 1 && (t[0] == '+' || t[0] == '-') && AllDigits(t[1..]))
  {
    if |t| > 0 && AllDigits(t) then Some(DigitsValue(t))
    else if |t| > 1 && t[0] == '-' && AllDigits(t[1..]) then Some(-(DigitsValue(t[1..]) as int))
    else if |t| > 1 && t[0] == '+' && AllDigits(t[1..]) then Some(DigitsValue(t[1..]))
    else None
  }

  function DigitChar(n: nat): char
    requires n < 10
  {
    ('0' as int + n) as char
  }

  /** `str(n)` for a non-negative `n`. */
  function NatToString(n: nat): (d: string)
    ensures |d| > 0
    decreases n
  {
    if n < 10 then [DigitChar(n)]
    else NatToString(n / 10) + [DigitChar(n % 10)]
  }

  /** `str(n)` is the shortest decimal numeral of `n`: digits only, denoting
      `n`, with no leading zero unless `n` is zero. */
  lemma {:induction false} NatToStringDigits(n: nat)
    ensures AllDigits(NatToString(n))
    ensures DigitsValue(NatToString(n)) == n
    ensures NatToString(n)[0] == '0' ==> n == 0
    decreases n
  {
    if n >= 10 {
      var front := NatToString(n / 10);
      NatToStringDigits(n / 10);
      var d := NatToString(n);
      assert d == front + [DigitChar(n % 10)];
      assert d[..|d| - 1] == front;
      assert d[0] == front[0];
    }
  }

  /** `str(i)`. */
  function IntToString(i: int): (d: string)
    ensures |d| > 0
  {
    if i >= 0 then NatToString(i) else "-" + NatToString(-i)
  }

  /** `str(i)` holds no `_`, so it is a whole `_`-token. */
  lemma IntToStringHasNoUnderscore(i: int)
    ensures '_' !in IntToString(i)
  {
    var d := IntToString(i);
    NatToStringDigits(if i >= 0 then i else -i);
    if i >= 0 {
      assert forall k :: 0 <= k < |d| ==> IsDigit(d[k]);
    } else {
      assert forall k :: 1 <= k < |d| ==> d[k] == NatToString(-i)[k - 1];
    }
  }

  /** `int(str(i)) == i`. */
  lemma ParseIntToString(i: int)
    ensures ParseInt(IntToString(i)) == Some(i)
  {
    NatToStringDigits(if i >= 0 then i else -i);
    if i < 0 {
      var t := IntToString(i);
      assert t[1..] == NatToString(-i);
      assert !AllDigits(t) by { assert !IsDigit(t[0]); }
    }
  }

  /** Distinct integers print differently. */
  lemma IntToStringInjective(i: int, j: int)
    requires IntToString(i) == IntToString(j)
    ensures i == j
  {
    ParseIntToString(i);
    ParseIntToString(j);
  }
}

=== FILE: pylist.dfy ===
/** The Python list builtins the rename handler chains together:
    `range`, `reversed` and `zip`. */
module PyList {

  /** `range(lo, hi)`: the integers from `lo` up to but excluding `hi`. */
  function Range(lo: int, hi: int): (r: seq<int>)
    ensures |r| == if lo < hi then hi - lo else 0
    ensures forall k :: 0 <= k < |r| ==> r[k] == lo + k
    decreases hi - lo
  {
    if lo >= hi then [] else [lo] + Range(lo + 1, hi)
  }

  /** `reversed(s)`. */
  function Reverse<T>(s: seq<T>): (r: seq<T>)
    ensures |r| == |s|
    ensures forall k :: 0 <= k < |s| ==> r[k] == s[|s| - 1 - k]
    decreases |s|
  {
    if |s| == 0 then [] else Reverse(s[1..]) + [s[0]]
  }

  /** `zip(a, b)`: pairs up the two lists, stopping at the end of the shorter one. */
  function Zip<A, B>(a: seq<A>, b: seq<B>): (r: seq<(A, B)>)
    ensures |r| == if |a| < |b| then |a| else |b|
    ensures forall k :: 0 <= k < |r| ==> r[k] == (a[k], b[k])
    decreases |a|
  {
    if |a| == 0 || |b| == 0 then [] else [(a[0], b[0])] + Zip(a[1..], b[1..])
  }
}

=== FILE: pyorder.dfy ===
/** Python's ordering of strings (lexicographic by code point, a proper prefix
    first) and `list.sort(reverse=True)` on a list of strings. */
module PyOrder {

  /** `a <= b` on Python strings. */
  predicate Le(a: string, b: string)
    decreases |a|
  {
    |a| == 0 || (|b| > 0 && (a[0] < b[0] || (a[0] == b[0] && Le(a[1..], b[1..]))))
  }

  lemma LeReflexive(a: string)
    ensures Le(a, a)
  {
  }

  lemma LeTotal(a: string, b: string)
    ensures Le(a, b) || Le(b, a)
  {
  }

  lemma LeAntisymmetric(a: string, b: string)
    requires Le(a, b) && Le(b, a)
    ensures a == b
  {
  }

  lemma LeTransitive(a: string, b: string, c: string)
    requires Le(a, b) && Le(b, c)
    ensures Le(a, c)
  {
  }

  /** A common prefix does not change how two strings compare. */
  lemma {:induction false} LeCommonPrefix(p: string, x: string, y: string)
    ensures Le(p + x, p + y) <==> Le(x, y)
    decreases |p|
  {
    if |p| > 0 {
      assert (p + x)[1..] == p[1..] + x;
      assert (p + y)[1..] == p[1..] + y;
      LeCommonPrefix(p[1..], x, y);
    } else {
      assert p + x == x && p + y == y;
    }
  }

  /** Each element is at least the one after it. */
  predicate SortedDesc(s: seq<string>) {
    forall k :: 0 < k < |s| ==> Le(s[k], s[k - 1])
  }

  /** Inserts `x` into a descending list before the first element not above it. */
  function InsertDesc(x: string, t: seq<string>): (r: seq<string>)
    requires SortedDesc(t)
    ensures SortedDesc(r)
    ensures multiset(r) == multiset(t) + multiset{x}
    ensures |r| > 0 && (r[0] == x || (|t| > 0 && r[0] == t[0]))
    decreases |t|
  {
    if |t| == 0 || Le(t[0], x) then
      assert |t| > 0 ==> Le(t[0], x);
      [x] + t
    else
      LeTotal(t[0], x);
      var rest := InsertDesc(x, t[1..]);
      assert t == [t[0]] + t[1..];
      [t[0]] + rest
  }

  /** `s.sort(reverse=True)`: the elements of `s`, greatest first. */
  function SortDesc(s: seq<string>): (r: seq<string>)
    ensures SortedDesc(r)
    ensures multiset(r) == multiset(s)
    decreases |s|
  {
    if |s| == 0 then []
    else
      assert s == [s[0]] + s[1..];
      InsertDesc(s[0], SortDesc(s[1..]))
  }

  /** Sortedness between neighbours reaches every later element. */
  lemma {:induction false} SortedDescFirstIsMax(s: seq<string>, k: int)
    requires SortedDesc(s) && 0 <= k < |s|
    ensures Le(s[k], s[0])
    decreases k
  {
    if k > 0 {
      SortedDescFirstIsMax(s, k - 1);
      LeTransitive(s[k], s[k - 1], s[0]);
    } else {
      LeReflexive(s[0]);
    }
  }

  /** Two descending arrangements of one multiset start with the same element. */
  lemma SortedDescSameHead(a: seq<string>, b: seq<string>)
    requires SortedDesc(a) && SortedDesc(b) && multiset(a) == multiset(b) && |a| > 0
    ensures |b| > 0 && a[0] == b[0]
  {
    assert a[0] in multiset(b);
    var j :| 0 <= j < |b| && b[j] == a[0];
    SortedDescFirstIsMax(b, j);
    assert b[0] in multiset(a);
    var i :| 0 <= i < |a| && a[i] == b[0];
    SortedDescFirstIsMax(a, i);
    LeAntisymmetric(a[0], b[0]);
  }

  lemma TailMultiset(a: seq<string>)
    requires |a| > 0
    ensures multiset(a[1..]) == multiset(a) - multiset{a[0]}
  {
    assert a == [a[0]] + a[1..];
  }

  /** Only one descending arrangement of a multiset exists, so every correct
      descending sort of `s` returns `SortDesc(s)`. */
  lemma {:induction false} SortedDescUnique(a: seq<string>, b: seq<string>)
    requires SortedDesc(a) && SortedDesc(b) && multiset(a) == multiset(b)
    ensures a == b
    decreases |a|
  {
    if |a| > 0 {
      SortedDescSameHead(a, b);
      TailMultiset(a);
      TailMultiset(b);
      SortedDescUnique(a[1..], b[1..]);
      assert a == [a[0]] + a[1..] && b == [b[0]] + b[1..];
    } else {
      assert |b| == |multiset(b)| == 0;
    }
  }
}

=== FILE: pystrip.dfy ===
/** Python's `s.strip(chars)`. The argument is a SET of characters, not a
    suffix: every leading and every trailing character that occurs anywhere in
    `chars` is removed, and an empty `chars` removes nothing. */
module PyStrip {

  /** `s.lstrip(chars)`: the suffix left after dropping every leading character in `chars`. */
  function LStrip(s: string, chars: string): (r: string)
    ensures |r| <= |s| && r == s[|s| - |r|..]
    ensures forall k :: 0 <= k < |s| - |r| ==> s[k] in chars
    ensures |r| > 0 ==> r[0] !in chars
    decreases |s|
  {
    if |s| > 0 && s[0] in chars then LStrip(s[1..], chars) else s
  }

  /** `s.rstrip(chars)`: the prefix left after dropping every trailing character in `chars`. */
  function RStrip(s: string, chars: string): (r: string)
    ensures |r| <= |s| && r == s[..|r|]
    ensures forall k :: |r| <= k < |s| ==> s[k] in chars
    ensures |r| > 0 ==> r[|r| - 1] !in chars
    decreases |s|
  {
    if |s| > 0 && s[|s| - 1] in chars then RStrip(s[..|s| - 1], chars) else s
  }

  /** `s.strip(chars)`. */
  function Strip(s: string, chars: string): (r: string)
    ensures |r| <= |s|
    ensures |r| == 0 ==> forall k :: 0 <= k < |s| ==> s[k] in chars
    ensures |r| > 0 ==> r[0] !in chars && r[|r| - 1] !in chars
  {
    var right := RStrip(s, chars);
    var r := LStrip(right, chars);
    r
  }

  /** The right strip is the only prefix whose cut-off characters are all in
      `chars` and which does not itself end in one. */
  lemma RStripUnique(s: string, chars: string, j: int)
    requires 0 <= j <= |s|
    requires forall k :: j <= k < |s| ==> s[k] in chars
    requires j > 0 ==> s[j - 1] !in chars
    ensures RStrip(s, chars) == s[..j]
  {
    var r := RStrip(s, chars);
  }

  /** The left strip is the only suffix whose cut-off characters are all in
      `chars` and which does not itself start with one. */
  lemma LStripUnique(s: string, chars: string, i: int)
    requires 0 <= i <= |s|
    requires forall k :: 0 <= k < i ==> s[k] in chars
    requires i < |s| ==> s[i] !in chars
    ensures LStrip(s, chars) == s[i..]
  {
    var r := LStrip(s, chars);
    var cut := |s| - |r|;
  }

  /** Reference definition of `strip`: `s[i..j]` is the stripped string whenever
      everything outside it is in `chars` and its two ends are not. */
  lemma StripUnique(s: string, chars: string, i: int, j: int)
    requires 0 <= i <= j <= |s|
    requires forall k :: 0 <= k < i ==> s[k] in chars
    requires forall k :: j <= k < |s| ==> s[k] in chars
    requires i < j ==> s[i] !in chars && s[j - 1] !in chars
    ensures Strip(s, chars) == s[i..j]
  {
    if i < j {
      RStripUnique(s, chars, j);
      LStripUnique(s[..j], chars, i);
    } else {
      assert forall k :: 0 <= k < |s| ==> s[k] in chars;
      RStripUnique(s, chars, 0);
      assert RStrip(s, chars) == [];
    }
  }
}

=== FILE: pytext.dfy ===
/** The Python `str` operations the controller relies on: `in`, `replace` and
    `split`, with CPython's semantics. */
module PyText {

  /** `p` occurs in `s` starting at index `i`. */
  ghost predicate OccursAt(s: string, p: string, i: int) {
    0 <= i <= |s| - |p| && s[i..i + |p|] == p
  }

  predicate StartsWith(s: string, p: string) {
    |p| <= |s| && s[..|p|] == p
  }

  lemma OccursShift(s: string, p: string)
    requires |s| > 0
    ensures forall i :: 0 <= i ==> (OccursAt(s[1..], p, i) <==> OccursAt(s, p, i + 1))
  {
    forall i | 0 <= i
      ensures OccursAt(s[1..], p, i) <==> OccursAt(s, p, i + 1)
    {
      if 0 <= i <= |s| - 1 - |p| {
        assert s[1..][i..i + |p|] == s[i + 1..i + 1 + |p|];
      }
    }
  }

  /** Python's `p in s`. */
  function Contains(s: string, p: string): bool
    decreases |s|
  {
    if StartsWith(s, p) then true
    else if |s| == 0 then false
    else Contains(s[1..], p)
  }

  /** `Contains` holds exactly when `p` occurs at some index of `s`. */
  lemma {:induction false} ContainsIff(s: string, p: string)
    ensures Contains(s, p) <==> exists i :: OccursAt(s, p, i)
    decreases |s|
  {
    if StartsWith(s, p) {
      assert OccursAt(s, p, 0);
    } else if |s| > 0 {
      ContainsIff(s[1..], p);
      OccursShift(s, p);
      if Contains(s[1..], p) {
        ShiftWitnessValid(s, p);
        assert OccursAt(s, p, ShiftWitness(s, p) + 1);
      } else {
        forall i ensures !OccursAt(s, p, i) {
          if i >= 1 { assert !OccursAt(s[1..], p, i - 1); }
        }
      }
    }
  }

  /** A string shorter than `p` cannot contain it. */
  lemma {:induction false} ContainsShort(s: string, p: string)
    requires |s| < |p|
    ensures !Contains(s, p)
    decreases |s|
  {
    if |s| > 0 {
      ContainsShort(s[1..], p);
    }
  }

  /** A string without the first character of `p` cannot contain it. */
  lemma {:induction false} ContainsNeedsFirst(s: string, p: string)
    requires |p| > 0 && p[0] !in s
    ensures !Contains(s, p)
    decreases |s|
  {
    if |s| > 0 {
      assert p[0] !in s[1..];
      ContainsNeedsFirst(s[1..], p);
    }
  }

  /** Some index at which `p` occurs in `s[1..]`, when it occurs there at all. */
  ghost function ShiftWitness(s: string, p: string): int
    requires |s| > 0
  {
    if exists i :: OccursAt(s[1..], p, i) then
      var i :| OccursAt(s[1..], p, i); i
    else 0
  }

  lemma ShiftWitnessValid(s: string, p: string)
    requires |s| > 0 && exists i :: OccursAt(s[1..], p, i)
    ensures OccursAt(s[1..], p, ShiftWitness(s, p))
  {
  }

  /** How many occurrences of `pat` a left-to-right, non-overlapping scan of `s` finds. */
  function Count(s: string, pat: string): nat
    requires |pat| > 0
    decreases |s|
  {
    if |s| == 0 then 0
    else if StartsWith(s, pat) then 1 + Count(s[|pat|..], pat)
    else Count(s[1..], pat)
  }

  /** Python's `s.replace(pat, rep)`: each occurrence of `pat` found by a
      left-to-right, non-overlapping scan is replaced by `rep`. */
  function Replace(s: string, pat: string, rep: string): string
    requires |pat| > 0
    decreases |s|
  {
    if |s| == 0 then s
    else if StartsWith(s, pat) then rep + Replace(s[|pat|..], pat, rep)
    else [s[0]] + Replace(s[1..], pat, rep)
  }

  /** Each replacement changes the length by `|rep| - |pat|`. */
  lemma {:induction false} ReplaceLength(s: string, pat: string, rep: string)
    requires |pat| > 0
    ensures |Replace(s, pat, rep)| == |s| + Count(s, pat) * (|rep| - |pat|)
    decreases |s|
  {
    if |s| > 0 {
      if StartsWith(s, pat) {
        ReplaceLength(s[|pat|..], pat, rep);
        MulStep(Count(s[|pat|..], pat), |rep| - |pat|);
      } else {
        ReplaceLength(s[1..], pat, rep);
      }
    }
  }

  /** A string in which `pat` does not occur is left unchanged. */
  lemma {:induction false} ReplaceAbsent(s: string, pat: string, rep: string)
    requires |pat| > 0 && !Contains(s, pat)
    ensures Replace(s, pat, rep) == s
    decreases |s|
  {
    if |s| > 0 {
      assert !Contains(s[1..], pat);
      ReplaceAbsent(s[1..], pat, rep);
    }
  }

  lemma MulStep(c: int, d: int)
    ensures (1 + c) * d == c * d + d
  {
  }

  /** A leading occurrence is always the first one replaced. */
  lemma {:induction false} ReplaceLeading(pat: string, t: string, rep: string)
    requires |pat| > 0
    ensures Replace(pat + t, pat, rep) == rep + Replace(t, pat, rep)
  {
    assert (pat + t)[..|pat|] == pat;
    assert (pat + t)[|pat|..] == t;
  }

  /** Replacing a pattern by itself gives back the string: `replace` rewrites
      exactly the occurrences it finds and copies everything else. */
  lemma {:induction false} ReplaceSelf(s: string, pat: string)
    requires |pat| > 0
    ensures Replace(s, pat, pat) == s
    decreases |s|
  {
    if |s| > 0 {
      if StartsWith(s, pat) {
        ReplaceSelf(s[|pat|..], pat);
        assert s == pat + s[|pat|..];
      } else {
        ReplaceSelf(s[1..], pat);
        assert s == [s[0]] + s[1..];
      }
    }
  }

  /** A character that does not start an occurrence is kept as it is. */
  lemma ReplaceSkip(c: char, t: string, pat: string, rep: string)
    requires |pat| > 0 && !StartsWith([c] + t, pat)
    ensures Replace([c] + t, pat, rep) == [c] + Replace(t, pat, rep)
  {
    assert ([c] + t)[1..] == t;
  }

  /** Replacing by the empty string need not leave a string free of `pat`:
      removing the inner occurrence closes a new one around it. */
  lemma ReplaceCanLeavePattern(pat: string, s: string)
    requires pat == "radio_btn" && s == "rad" + pat + "io_btn"
    ensures Replace(s, pat, "") == pat
    ensures Contains(Replace(s, pat, ""), pat)
  {
    OuterStep(pat, s);
    assert StartsWith(pat, pat);
  }

  // The helpers below take the example apart one character at a time. Each
  // concrete text reaches them as a parameter pinned by `requires`, and each
  // sequence identity sits in a lemma of its own: the verifier unfolds
  // `Replace` on a literal eagerly, and one lemma doing all the steps at once
  // comes close to its resource bound.

  lemma OuterStep(pat: string, s: string)
    requires pat == "radio_btn" && s == "rad" + pat + "io_btn"
    ensures Replace(s, pat, "") == pat
  {
    var u := ['a'] + (['d'] + "io_btn");
    var t1 := ['a'] + (['d'] + (pat + "io_btn"));
    MiddleSteps(pat, t1);
    OuterSplit(pat, s, t1);
    SkipStep('r', t1, pat, u);
    OuterJoin(pat, u);
  }

  lemma OuterSplit(pat: string, s: string, t1: string)
    requires pat == "radio_btn" && s == "rad" + pat + "io_btn" && t1 == ['a'] + (['d'] + (pat + "io_btn"))
    ensures s == ['r'] + t1
  {
  }

  lemma OuterJoin(pat: string, u: string)
    requires pat == "radio_btn" && u == ['a'] + (['d'] + "io_btn")
    ensures ['r'] + u == pat
  {
  }

  lemma MiddleSteps(pat: string, t1: string)
    requires pat == "radio_btn" && t1 == ['a'] + (['d'] + (pat + "io_btn"))
    ensures Replace(t1, pat, "") == ['a'] + (['d'] + "io_btn")
  {
    var tail := "io_btn";
    var t3 := pat + tail;
    InnerStep(t3, pat, tail);
    SkipStep('d', t3, pat, tail);
    SkipStep('a', ['d'] + t3, pat, ['d'] + tail);
  }

  lemma InnerStep(t: string, pat: string, tail: string)
    requires pat == "radio_btn" && tail == "io_btn" && t == pat + tail
    ensures Replace(t, pat, "") == tail
  {
    ContainsShort(tail, pat);
    ReplaceAbsent(tail, pat, "");
    ReplaceLeading(pat, tail, "");
  }

  lemma SkipStep(c: char, t: string, pat: string, u: string)
    requires |pat| > 3 && |t| >= 3 && (c != pat[0] || t[2] != pat[3])
    requires Replace(t, pat, "") == u
    ensures Replace([c] + t, pat, "") == [c] + u
  {
    var s := [c] + t;
    assert s[1..] == t;
    assert s[0] == c && s[3] == t[2];
  }

  /** Python's `s.split(sep)` for a one-character separator: the pieces between
      separators, always at least one. */
  function Split(s: string, sep: char): (parts: seq<string>)
    ensures |parts| >= 1
    ensures forall k :: 0 <= k < |parts| ==> sep !in parts[k]
    ensures Join(parts, sep) == s
    decreases |s|
  {
    if |s| == 0 then [""]
    else
      var init := Split(s[..|s| - 1], sep);
      var c := s[|s| - 1];
      if c == sep then
        assert s == s[..|s| - 1] + [sep] + "";
        init + [""]
      else
        var front := init[..|init| - 1];
        var last := init[|init| - 1];
        var parts := front + [last + [c]];
        assert parts[..|parts| - 1] == front;
        assert |init| > 1 ==> init[..|init| - 1] == front;
        assert s == s[..|s| - 1] + [c];
        parts
  }

  /** Python's `sep.join(parts)`. */
  function Join(parts: seq<string>, sep: char): string
    requires |parts| >= 1
    decreases |parts|
  {
    if |parts| == 1 then parts[0]
    else Join(parts[..|parts| - 1], sep) + [sep] + parts[|parts| - 1]
  }

  /** Python's `s.split(sep)[-1]`. */
  function LastToken(s: string, sep: char): string {
    var parts := Split(s, sep);
    parts[|parts| - 1]
  }

  /** The last token is the suffix after the last separator, or all of `s`
      when `s` holds no separator. */
  lemma {:induction false} LastTokenShape(s: string, sep: char)
    ensures var t := LastToken(s, sep);
      && |t| <= |s| && s[|s| - |t|..] == t && sep !in t
      && (|t| == |s| <==> sep !in s)
      && (|t| < |s| ==> s[|s| - |t| - 1] == sep)
    decreases |s|
  {
    if |s| > 0 {
      var init := s[..|s| - 1];
      LastTokenShape(init, sep);
      if s[|s| - 1] != sep {
        var t0 := LastToken(init, sep);
        assert LastToken(s, sep) == t0 + [s[|s| - 1]];
        assert s[|s| - |t0| - 1..] == init[|init| - |t0|..] + [s[|s| - 1]];
        assert sep in init ==> sep in s;
      }
    }
  }

  /** Whatever precedes it, the text after a last separator is the last token. */
  lemma {:induction false} LastTokenAfter(pre: string, sep: char, t: string)
    requires sep !in t
    ensures LastToken(pre + [sep] + t, sep) == t
    decreases |t|
  {
    var s := pre + [sep] + t;
    if |t| == 0 {
      assert s[..|s| - 1] == pre;
    } else {
      var t0 := t[..|t| - 1];
      assert s[..|s| - 1] == pre + [sep] + t0;
      LastTokenAfter(pre, sep, t0);
      assert t == t0 + [t[|t| - 1]];
    }
  }
}

=== FILE: rename.dfy ===
/** `rename_object` (NameManagerController.py:110-147): the plan of host
    renames one click on a naming button makes.

    The handler composes a base name from the mesh text, the naming state and
    a token for the clicked button, scans every scene name for indices already
    used with that base, and gives the selected objects, sorted in descending
    order, the next block of indices counting down. Two scans are modelled:
    `StripScan` is the test the source performs, `ExactScan` the exact
    tokenizer it evidently intends; `RenamePlan` takes the scan as a parameter.
 */
module Rename {
  import opened Outcomes
  import opened PyText
  import opened PyStrip
  import opened PyInt
  import opened PyOrder
  import opened PyList
  import opened Naming

  /** One intended `cmds.rename(target, CallName(call))`: the object gets the
      base name with index `index` appended. */
  datatype RenameCall = RenameCall(target: string, base: string, index: int)

  const NoMeshWarning := "You must select a mesh name"
  const NoSelectionWarning := "You must select an object to rename"

  /** The token a button contributes (lines 126-127): the custom text after
      an underscore for a button whose name holds "apply", otherwise the
      button's name with every "btn" replaced by nothing. */
  function ObjectToken(button: string, customText: string): (t: string)
    ensures Contains(button, "apply") ==> t == "_" + customText
    ensures !Contains(button, "apply") ==> |t| + 3 * Count(button, "btn") == |button|
  {
    if Contains(button, "apply") then "_" + customText
    else
      ReplaceLength(button, "btn", "");
      Replace(button, "btn", "")
  }

  /** The custom-name button uses the custom text whatever else its name holds,
      and a name with neither marker is used as it is. */
  lemma ObjectTokenCases(button: string, customText: string)
    ensures Contains(button, "apply") ==> ObjectToken(button, customText) == "_" + customText
    ensures !Contains(button, "apply") && !Contains(button, "btn") ==> ObjectToken(button, customText) == button
  {
    if !Contains(button, "btn") {
      ReplaceAbsent(button, "btn", "");
    }
  }

  /** A naming button called "btn" followed by a token contributes that token. */
  lemma ObjectTokenOfButton(t: string, customText: string)
    requires !Contains(t, "btn") && !Contains("btn" + t, "apply")
    ensures ObjectToken("btn" + t, customText) == t
  {
    ReplaceLeading("btn", t, "");
    ReplaceAbsent(t, "btn", "");
  }

  /** The base name of line 129: the mesh name first and the kinematic tag
      last, with the side code, the token and the type between them. */
  function CompositeName(mesh: string, naming: NamingState, token: string): (c: string)
    ensures |c| == |mesh| + |naming.side| + |token| + |naming.objectType| + |naming.kinematic|
    ensures c[..|mesh|] == mesh && c[|c| - |naming.kinematic|..] == naming.kinematic
  {
    mesh + naming.side + token + naming.objectType + naming.kinematic
  }

  /** The name given to the object that receives index `i`: the base name,
      an underscore, and a numeral holding no further underscore. */
  function NewName(composite: string, i: int): (n: string)
    ensures |n| > |composite| + 1 && n[..|composite| + 1] == composite + "_"
    ensures '_' !in n[|composite| + 1..]
  {
    IntToStringHasNoUnderscore(i);
    var n := composite + "_" + IntToString(i);
    assert n[|composite| + 1..] == IntToString(i);
    n
  }

  /** Line 136 read on a name line 143 produced gives back its index:
      `int(name.split('_')[-1]) == i`. */
  lemma NewNameRoundTrip(composite: string, i: int)
    ensures ParseInt(LastToken(NewName(composite, i), '_')) == Some(i)
  {
    IntToStringHasNoUnderscore(i);
    assert NewName(composite, i) == composite + ['_'] + IntToString(i);
    LastTokenAfter(composite, '_', IntToString(i));
    ParseIntToString(i);
  }

  /** The new name a rename call gives its target (line 143). */
  function CallName(call: RenameCall): string {
    NewName(call.base, call.index)
  }

  lemma NewNameInjective(composite: string, i: int, j: int)
    ensures NewName(composite, i) == NewName(composite, j) ==> i == j
  {
    var n := |composite| + 1;
    assert NewName(composite, i)[n..] == IntToString(i);
    assert NewName(composite, j)[n..] == IntToString(j);
    if IntToString(i) == IntToString(j) {
      IntToStringInjective(i, j);
    }
  }

  // ---------------------------------------------------------------------------
  // The scan as written (lines 131-138)

  /** Line 134: scene name `o` counts for `composite` when stripping the
      CHARACTERS of its last `_`-token from both of its ends leaves `composite`. */
  predicate StripMatches(composite: string, o: string) {
    composite == Strip(o, LastToken(o, '_'))
  }

  /** The index line 136 reads from a matching name: `int()` of its last token. */
  function TokenIndex(o: string): Option<int> {
    ParseInt(LastToken(o, '_'))
  }

  function Max(a: int, b: int): int {
    if a >= b then a else b
  }

  /** What lines 134-136 make of one scene name. */
  datatype Probe = Skipped | Counted(index: int) | Unparsable

  function ProbeName(composite: string, o: string): Probe {
    if !StripMatches(composite, o) then Skipped
    else match TokenIndex(o)
      case None => Unparsable
      case Some(v) => Counted(v)
  }

  /** `max([0] + indices)` over the probes in scene order, raising at the first
      unparsable one. */
  function MaxCounted(probes: seq<Probe>): (r: Outcome<int>)
    ensures r.Ok? || r.Raised?
    ensures r.Ok? ==> r.value >= 0
    decreases |probes|
  {
    if |probes| == 0 then Ok(0)
    else
      var rest := MaxCounted(probes[1..]);
      match probes[0]
      case Skipped => rest
      case Unparsable => Raised("ValueError: invalid literal for int() with base 10")
      case Counted(v) => if rest.Raised? then rest else Ok(Max(v, rest.value))
  }

  lemma {:induction false} MaxCountedRaisesIff(probes: seq<Probe>)
    ensures MaxCounted(probes).Raised? <==> exists k :: 0 <= k < |probes| && probes[k].Unparsable?
    decreases |probes|
  {
    if |probes| > 0 {
      MaxCountedRaisesIff(probes[1..]);
      assert forall k :: 0 < k < |probes| ==> probes[k] == probes[1..][k - 1];
    }
  }

  lemma {:induction false} MaxCountedBounds(probes: seq<Probe>)
    requires MaxCounted(probes).Ok?
    ensures forall k :: 0 <= k < |probes| && probes[k].Counted? ==> probes[k].index <= MaxCounted(probes).value
    decreases |probes|
  {
    if |probes| > 0 {
      MaxCountedBounds(probes[1..]);
      assert forall k :: 0 < k < |probes| ==> probes[k] == probes[1..][k - 1];
    }
  }

  lemma {:induction false} MaxCountedAttained(probes: seq<Probe>)
    requires MaxCounted(probes).Ok? && MaxCounted(probes).value != 0
    ensures exists k :: 0 <= k < |probes| && probes[k] == Counted(MaxCounted(probes).value)
    decreases |probes|
  {
    var rest := MaxCounted(probes[1..]);
    if rest.Ok? && rest.value != 0 && MaxCounted(probes).value == rest.value {
      MaxCountedAttained(probes[1..]);
      var k :| 0 <= k < |probes[1..]| && probes[1..][k] == Counted(rest.value);
      assert probes[k + 1] == Counted(rest.value);
    } else {
      assert probes[0] == Counted(MaxCounted(probes).value);
    }
  }

  /** Lines 131-138: `max` of the seeded 0 and every index read from a scene
      name that passes the strip test, or the `ValueError` of the first such
      name whose last token is not an integer. */
  function ScanAsWritten(composite: string, scene: seq<string>): (r: Outcome<int>)
    ensures r.Ok? || r.Raised?
    ensures r.Ok? ==> r.value >= 0
  {
    MaxCounted(Probes(composite, scene))
  }

  function Probes(composite: string, scene: seq<string>): seq<Probe> {
    seq(|scene|, k requires 0 <= k < |scene| => ProbeName(composite, scene[k]))
  }

  lemma ProbesAt(composite: string, scene: seq<string>)
    ensures |Probes(composite, scene)| == |scene|
    ensures forall k :: 0 <= k < |scene| ==> Probes(composite, scene)[k] == ProbeName(composite, scene[k])
  {
  }

  /** The scan raises exactly when some name passes the strip test with a last
      token `int()` rejects. */
  lemma ScanAsWrittenRaisesIff(composite: string, scene: seq<string>)
    ensures ScanAsWritten(composite, scene).Raised? <==>
      exists k :: 0 <= k < |scene| && StripMatches(composite, scene[k]) && TokenIndex(scene[k]).None?
  {
    var probes := Probes(composite, scene);
    ProbesAt(composite, scene);
    MaxCountedRaisesIff(probes);
    assert forall k :: 0 <= k < |scene| ==>
      (probes[k].Unparsable? <==> StripMatches(composite, scene[k]) && TokenIndex(scene[k]).None?);
  }

  /** `max_index` is at least the index of every name that passes the strip test. */
  lemma ScanAsWrittenBounds(composite: string, scene: seq<string>)
    requires ScanAsWritten(composite, scene).Ok?
    ensures forall k :: 0 <= k < |scene| && StripMatches(composite, scene[k]) ==>
      TokenIndex(scene[k]).Some? && TokenIndex(scene[k]).value <= ScanAsWritten(composite, scene).value
  {
    var probes := Probes(composite, scene);
    ProbesAt(composite, scene);
    MaxCountedRaisesIff(probes);
    MaxCountedBounds(probes);
    assert forall k :: 0 <= k < |scene| ==> !probes[k].Unparsable?;
  }

  /** A non-zero `max_index` is the index of some name that passes the strip test. */
  lemma ScanAsWrittenAttained(composite: string, scene: seq<string>)
    requires ScanAsWritten(composite, scene).Ok? && ScanAsWritten(composite, scene).value != 0
    ensures exists k :: (0 <= k < |scene| && StripMatches(composite, scene[k]) &&
                         TokenIndex(scene[k]) == Some(ScanAsWritten(composite, scene).value))
  {
    var probes := Probes(composite, scene);
    MaxCountedAttained(probes);
    var k :| 0 <= k < |probes| && probes[k] == Counted(ScanAsWritten(composite, scene).value);
    ProbeAt(composite, scene, k);
    ProbeNameCounted(composite, scene[k], ScanAsWritten(composite, scene).value);
  }

  lemma ProbeAt(composite: string, scene: seq<string>, k: int)
    requires 0 <= k < |scene|
    ensures |Probes(composite, scene)| == |scene| && Probes(composite, scene)[k] == ProbeName(composite, scene[k])
  {
  }

  lemma ProbeNameCounted(composite: string, o: string, v: int)
    requires ProbeName(composite, o) == Counted(v)
    ensures StripMatches(composite, o) && TokenIndex(o) == Some(v)
  {
  }

  /** Whatever the scene name, what the strip test compares is either empty or
      ends in `_`: the last token's characters are all stripped from the right,
      and the `_` before them is not. */
  lemma StripOfLastToken(o: string)
    ensures var r := Strip(o, LastToken(o, '_')); |r| == 0 || r[|r| - 1] == '_'
  {
    var t := LastToken(o, '_');
    LastTokenShape(o, '_');
    if |t| == |o| {
      assert o == t;
      StripUnique(o, t, 0, 0);
    } else {
      var j := |o| - |t|;
      assert forall k :: j <= k < |o| ==> o[k] == t[k - j];
      RStripUnique(o, t, j);
    }
  }

  /** A non-empty composite that does not end in `_` matches no scene name,
      so the as-written scan finds the seeded 0. (The empty composite matches
      every name without `_`, since `"5".strip("5")` is empty.) */
  lemma StripScanNeedsUnderscore(composite: string, scene: seq<string>)
    requires |composite| > 0 && composite[|composite| - 1] != '_'
    ensures ScanAsWritten(composite, scene) == Ok(0)
  {
    var probes := Probes(composite, scene);
    forall k | 0 <= k < |probes|
      ensures probes[k].Skipped?
    {
      ProbeAt(composite, scene, k);
      StripOfLastToken(scene[k]);
      SkippedWhenNoMatch(composite, scene[k]);
    }
    MaxCountedAllSkipped(probes);
  }

  lemma SkippedWhenNoMatch(composite: string, o: string)
    requires !StripMatches(composite, o)
    ensures ProbeName(composite, o) == Skipped
  {
  }

  /** Probes that all skip leave the seeded 0. */
  lemma {:induction false} MaxCountedAllSkipped(probes: seq<Probe>)
    requires forall k :: 0 <= k < |probes| ==> probes[k].Skipped?
    ensures MaxCounted(probes) == Ok(0)
    decreases |probes|
  {
    if |probes| > 0 {
      assert forall k :: 0 <= k < |probes[1..]| ==> probes[1..][k] == probes[k + 1];
      MaxCountedAllSkipped(probes[1..]);
    }
  }

  /** If `c` is `c` followed by `x` with its first character dropped, every
      character of `c` is `x`. */
  lemma {:induction false} ShiftFixed(c: string, x: char, k: int)
    requires c == (c + [x])[1..] && 0 <= k < |c|
    ensures c[k] == x
    decreases |c| - k
  {
    assert c[k] == (c + [x])[k + 1];
    if k + 1 < |c| {
      ShiftFixed(c, x, k + 1);
    }
  }

  /** The as-written scan never counts a name this handler produced from the
      same composite: stripping the digits of `composite_i` leaves `composite_`
      less some leading digits, never `composite`. */
  lemma StripScanMissesNewName(composite: string, i: int)
    ensures !StripMatches(composite, NewName(composite, i))
  {
    var d := IntToString(i);
    IntToStringHasNoUnderscore(i);
    var x := composite + "_";
    var o := x + d;
    assert o == NewName(composite, i);
    LastTokenAfter(composite, '_', d);
    assert forall k :: |x| <= k < |o| ==> o[k] == d[k - |x|];
    RStripUnique(o, d, |x|);
    assert o[..|x|] == x;
    var l := LStrip(x, d);
    assert |l| == |composite| ==> l == x[1..] && x[0] in d;
    if composite == x[1..] && |composite| > 0 {
      ShiftFixed(composite, '_', 0);
    }
  }

  /** The other way the strip test goes wrong: a base ending in `_` counts the
      names made from the base one `_` shorter (`"arm_1".strip("1")` is
      `"arm_"`), unless that shorter base starts with a character of the index. */
  lemma StripScanCountsShorterBase(composite: string, i: int)
    requires |composite| == 0 || composite[0] !in IntToString(i)
    ensures StripMatches(composite + "_", NewName(composite, i))
    ensures TokenIndex(NewName(composite, i)) == Some(i)
  {
    var d := IntToString(i);
    IntToStringHasNoUnderscore(i);
    var x := composite + "_";
    var o := x + d;
    assert o == NewName(composite, i);
    LastTokenAfter(composite, '_', d);
    assert forall k :: |x| <= k < |o| ==> o[k] == d[k - |x|];
    RStripUnique(o, d, |x|);
    assert o[..|x|] == x;
    LStripUnique(x, d, 0);
    NewNameRoundTrip(composite, i);
  }

  // ---------------------------------------------------------------------------
  // The exact scan

  /** The index a scene name carries for `composite` when it is exactly
      `composite`, one `_`, and a non-empty run of decimal digits. */
  function ExactIndex(composite: string, o: string): Option<nat> {
    var n := |composite| + 1;
    if |o| > n && o[..n] == composite + "_" && AllDigits(o[n..]) then Some(DigitsValue(o[n..]))
    else None
  }

  /** The exact scan reads back every index this handler gives out. */
  lemma ExactIndexOfNewName(composite: string, i: nat)
    ensures ExactIndex(composite, NewName(composite, i)) == Some(i)
  {
    NatToStringDigits(i);
    var o := NewName(composite, i);
    var n := |composite| + 1;
    assert o[..n] == composite + "_";
    assert o[n..] == NatToString(i);
  }

  /** The largest index any scene name carries for `composite`, 0 when none
      does: it bounds every recognised index and is one of them unless 0. */
  function ScanExact(composite: string, scene: seq<string>): (m: nat)
    ensures forall k :: 0 <= k < |scene| && ExactIndex(composite, scene[k]).Some? ==>
      ExactIndex(composite, scene[k]).value <= m
    ensures m == 0 || exists k :: 0 <= k < |scene| && ExactIndex(composite, scene[k]) == Some(m)
    decreases |scene|
  {
    if |scene| == 0 then 0
    else
      var rest := ScanExact(composite, scene[1..]);
      assert forall k :: 0 < k < |scene| ==> scene[k] == scene[1..][k - 1];
      match ExactIndex(composite, scene[0])
      case None => rest
      case Some(v) => if v >= rest then v else rest
  }

  // ---------------------------------------------------------------------------
  // The plan

  datatype ScanMode = StripScan | ExactScan

  /** The largest index already in use (lines 131-138). */
  function MaxIndex(mode: ScanMode, composite: string, scene: seq<string>): (r: Outcome<int>)
    ensures r.Ok? ==> r.value >= 0
    ensures r.Raised? ==> mode == StripScan
    ensures !r.Warning?
  {
    match mode
    case StripScan => ScanAsWritten(composite, scene)
    case ExactScan => Ok(ScanExact(composite, scene))
  }

  /** `reversed(range(m + 1, m + n + 1))` (line 140). */
  function IndexBlock(m: int, n: nat): seq<int> {
    Reverse(Range(m + 1, m + n + 1))
  }

  /** The block holds `n` indices counting down from `m + n` to `m + 1`. */
  lemma IndexBlockCountsDown(m: int, n: nat)
    ensures |IndexBlock(m, n)| == n
    ensures forall k :: 0 <= k < n ==> IndexBlock(m, n)[k] == m + n - k
    ensures forall j, k :: 0 <= j < k < n ==> IndexBlock(m, n)[j] > IndexBlock(m, n)[k] > m
  {
  }

  /** Lines 142-143: the k-th object receives the k-th index of the block. */
  function Assign(composite: string, targets: seq<string>, m: int): (calls: seq<RenameCall>)
    ensures |calls| == |targets|
    ensures forall k :: 0 <= k < |calls| ==>
      calls[k] == RenameCall(targets[k], composite, m + |targets| - k)
  {
    IndexBlockCountsDown(m, |targets|);
    var pairs := Zip(IndexBlock(m, |targets|), targets);
    seq(|pairs|, k requires 0 <= k < |pairs| => RenameCall(pairs[k].1, composite, pairs[k].0))
  }

  function Targets(calls: seq<RenameCall>): (ts: seq<string>)
    ensures |ts| == |calls| && forall k :: 0 <= k < |calls| ==> ts[k] == calls[k].target
  {
    seq(|calls|, k requires 0 <= k < |calls| => calls[k].target)
  }

  /** The composite a click builds (lines 126-129). */
  function ClickComposite(meshText: string, customText: string, button: string, naming: NamingState): (c: string)
    ensures |c| >= |meshText| && c[..|meshText|] == meshText
    ensures Contains(button, "apply") ==> c == CompositeName(meshText, naming, "_" + customText)
  {
    CompositeName(meshText, naming, ObjectToken(button, customText))
  }

  /** Lines 136-143 once the guards pass: the error of a raising scan, or the
      renames of `targets` from the block above the scan's maximum. */
  function Finish(composite: string, targets: seq<string>, scan: Outcome<int>): Outcome<seq<RenameCall>> {
    match scan
    case Ok(m) => Ok(Assign(composite, targets, m))
    case Raised(e) => Raised(e)
    case Warning(w) => Warning(w)
  }

  /** `rename_object(button)`: `selection` is what `cmds.ls(sl=True, l=True)`
      returns and `scene` what `cmds.ls()` returns. */
  function RenamePlan(mode: ScanMode, meshText: string, customText: string, button: string,
                      naming: NamingState, selection: seq<string>, scene: seq<string>)
    : (r: Outcome<seq<RenameCall>>)
    ensures meshText == "" ==> r == Warning(NoMeshWarning)
    ensures meshText != "" && |selection| == 0 ==> r == Warning(NoSelectionWarning)
    ensures meshText != "" && |selection| > 0 ==> !r.Warning?
    ensures r.Raised? <==> (meshText != "" && |selection| > 0 &&
                            MaxIndex(mode, ClickComposite(meshText, customText, button, naming), scene).Raised?)
    ensures r.Ok? ==> |r.value| == |selection|
  {
    if meshText == "" then Warning(NoMeshWarning)
    else
      var sorted := SortDesc(selection);
      SortDescLength(selection);
      if |sorted| == 0 then Warning(NoSelectionWarning)
      else Finish(ClickComposite(meshText, customText, button, naming), sorted,
                  MaxIndex(mode, ClickComposite(meshText, customText, button, naming), scene))
  }

  lemma SortDescLength(s: seq<string>)
    ensures |SortDesc(s)| == |s|
  {
    assert |SortDesc(s)| == |multiset(SortDesc(s))| == |multiset(s)| == |s|;
  }

  /** Past the two guards the plan is `Finish` of the sorted selection and the scan. */
  lemma RenamePlanIsFinish(mode: ScanMode, meshText: string, customText: string, button: string,
                           naming: NamingState, selection: seq<string>, scene: seq<string>)
    requires meshText != "" && |selection| > 0
    ensures var composite := ClickComposite(meshText, customText, button, naming);
      && |SortDesc(selection)| == |selection|
      && RenamePlan(mode, meshText, customText, button, naming, selection, scene)
         == Finish(composite, SortDesc(selection), MaxIndex(mode, composite, scene))
  {
    SortDescLength(selection);
  }

  /** A successful `Finish` renames the targets in order, the k-th with index
      `max_index + n - k`. */
  lemma FinishShape(composite: string, targets: seq<string>, scan: Outcome<int>)
    requires Finish(composite, targets, scan).Ok?
    ensures scan.Ok?
    ensures Targets(Finish(composite, targets, scan).value) == targets
    ensures |Finish(composite, targets, scan).value| == |targets|
    ensures var calls := Finish(composite, targets, scan).value;
      forall k :: 0 <= k < |calls| ==> calls[k].base == composite && calls[k].index == scan.value + |calls| - k
  {
    assert Targets(Finish(composite, targets, scan).value) == targets;
  }

  /** A successful plan renames exactly the selected objects, greatest name
      first (lines 121-122). */
  lemma RenamePlanTargets(mode: ScanMode, meshText: string, customText: string, button: string,
                          naming: NamingState, selection: seq<string>, scene: seq<string>)
    requires RenamePlan(mode, meshText, customText, button, naming, selection, scene).Ok?
    ensures var calls := RenamePlan(mode, meshText, customText, button, naming, selection, scene).value;
      && Targets(calls) == SortDesc(selection)
      && multiset(Targets(calls)) == multiset(selection)
      && SortedDesc(Targets(calls))
  {
    var composite := ClickComposite(meshText, customText, button, naming);
    RenamePlanIsFinish(mode, meshText, customText, button, naming, selection, scene);
    FinishShape(composite, SortDesc(selection), MaxIndex(mode, composite, scene));
  }

  /** In a successful plan the k-th object gets index `max_index + n - k`, so
      the indices count down from `max_index + n` to `max_index + 1`
      (lines 140-143). */
  lemma RenamePlanShape(mode: ScanMode, meshText: string, customText: string, button: string,
                        naming: NamingState, selection: seq<string>, scene: seq<string>)
    requires RenamePlan(mode, meshText, customText, button, naming, selection, scene).Ok?
    ensures var calls := RenamePlan(mode, meshText, customText, button, naming, selection, scene).value;
      var composite := ClickComposite(meshText, customText, button, naming);
      && MaxIndex(mode, composite, scene).Ok?
      && forall k :: 0 <= k < |calls| ==>
           calls[k].base == composite && calls[k].index == MaxIndex(mode, composite, scene).value + |selection| - k
  {
    var composite := ClickComposite(meshText, customText, button, naming);
    var scan := MaxIndex(mode, composite, scene);
    RenamePlanIsFinish(mode, meshText, customText, button, naming, selection, scene);
    FinishShape(composite, SortDesc(selection), scan);
    var calls := Finish(composite, SortDesc(selection), scan).value;
    assert |calls| == |selection|;
  }

  /** Names drawn from distinct indices of one block are distinct. */
  lemma BlockNamesDistinct(calls: seq<RenameCall>, composite: string, m: int)
    requires forall k :: 0 <= k < |calls| ==> calls[k].base == composite && calls[k].index == m + |calls| - k
    ensures forall j, k :: 0 <= j < k < |calls| ==> CallName(calls[j]) != CallName(calls[k])
  {
    forall j, k | 0 <= j < k < |calls|
      ensures CallName(calls[j]) != CallName(calls[k])
    {
      NewNameInjective(composite, m + |calls| - j, m + |calls| - k);
    }
  }

  /** No two objects of one click are given the same name. */
  lemma RenamePlanNamesDistinct(mode: ScanMode, meshText: string, customText: string, button: string,
                                naming: NamingState, selection: seq<string>, scene: seq<string>)
    requires RenamePlan(mode, meshText, customText, button, naming, selection, scene).Ok?
    ensures var calls := RenamePlan(mode, meshText, customText, button, naming, selection, scene).value;
      forall j, k :: 0 <= j < k < |calls| ==> CallName(calls[j]) != CallName(calls[k])
  {
    var composite := ClickComposite(meshText, customText, button, naming);
    var scan := MaxIndex(mode, composite, scene);
    RenamePlanIsFinish(mode, meshText, customText, button, naming, selection, scene);
    var calls := Finish(composite, SortDesc(selection), scan).value;
    FinishShape(composite, SortDesc(selection), scan);
    BlockNamesDistinct(calls, composite, scan.value);
  }

  /** With the as-written scan the handler raises exactly when some matching
      scene name has a last token `int()` rejects. */
  lemma StripPlanRaisesIff(meshText: string, customText: string, button: string,
                           naming: NamingState, selection: seq<string>, scene: seq<string>)
    requires meshText != "" && |selection| > 0
    ensures var composite := ClickComposite(meshText, customText, button, naming);
      RenamePlan(StripScan, meshText, customText, button, naming, selection, scene).Raised? <==>
      exists k :: 0 <= k < |scene| && StripMatches(composite, scene[k]) && TokenIndex(scene[k]).None?
  {
    ScanAsWrittenRaisesIff(ClickComposite(meshText, customText, button, naming), scene);
  }

  /** Names from a block above every index the exact scan recognises in the
      scene are all fresh. */
  lemma BlockAboveAvoidsScene(calls: seq<RenameCall>, composite: string, m: int, scene: seq<string>)
    requires m >= 0
    requires forall k :: 0 <= k < |calls| ==> calls[k].base == composite && calls[k].index == m + |calls| - k
    requires forall k :: 0 <= k < |scene| && ExactIndex(composite, scene[k]).Some? ==>
      ExactIndex(composite, scene[k]).value <= m
    ensures forall k :: 0 <= k < |calls| ==> CallName(calls[k]) !in scene
  {
    forall k | 0 <= k < |calls|
      ensures CallName(calls[k]) !in scene
    {
      var i: nat := m + |calls| - k;
      ExactIndexOfNewName(composite, i);
    }
  }

  /** With the exact scan no new name is already taken in the scene. */
  lemma ExactPlanAvoidsScene(meshText: string, customText: string, button: string,
                             naming: NamingState, selection: seq<string>, scene: seq<string>)
    requires RenamePlan(ExactScan, meshText, customText, button, naming, selection, scene).Ok?
    ensures var calls := RenamePlan(ExactScan, meshText, customText, button, naming, selection, scene).value;
      forall k :: 0 <= k < |calls| ==> CallName(calls[k]) !in scene
  {
    var composite := ClickComposite(meshText, customText, button, naming);
    var scan := MaxIndex(ExactScan, composite, scene);
    RenamePlanIsFinish(ExactScan, meshText, customText, button, naming, selection, scene);
    FinishShape(composite, SortDesc(selection), scan);
    BlockAboveAvoidsScene(Finish(composite, SortDesc(selection), scan).value, composite, scan.value, scene);
  }
}

=== FILE: scenarios.dfy ===
/** Concrete clicks on the "btn_jnt" button with mesh name "arm" and the
    initial naming state: one in any scene without matching names, and two in a
    scene that already holds "arm_jnt_5".

    The concrete texts and lists reach each lemma as parameters pinned by a
    `requires x == ...` clause rather than as literals in the `ensures`: the
    verifier unfolds recursive functions applied to literals eagerly, and
    the parameters keep that unfolding to the steps the proofs name. */
module Scenarios {
  import opened Outcomes
  import opened PyText
  import opened PyInt
  import opened PyOrder
  import opened Naming
  import opened Rename

  /** The button "btn_jnt" contributes "_jnt", so the base name is "arm_jnt". */
  lemma ArmJointComposite(mesh: string, button: string)
    requires mesh == "arm" && button == "btn_jnt"
    ensures ClickComposite(mesh, "", button, Initial) == "arm_jnt"
  {
    ContainsNeedsFirst("_jnt", "btn");
    ContainsNeedsFirst(button, "apply");
    assert button == "btn" + "_jnt";
    ObjectTokenOfButton("_jnt", "");
  }

  lemma NameDigits(i: nat, name: string)
    requires i < 10 && name == "arm_jnt_" + [DigitChar(i)]
    ensures NewName("arm_jnt", i) == name
  {
  }

  /** "joint" followed by a smaller digit sorts first. */
  lemma JointsCompare(a: string, b: string, x: char, y: char)
    requires a == "joint" + [x] && b == "joint" + [y] && x <= y
    ensures Le(a, b)
  {
    LeCommonPrefix("joint", [x], [y]);
  }

  lemma TwoJointsSorted(selection: seq<string>)
    requires selection == ["joint2", "joint1"]
    ensures SortDesc(selection) == selection
  {
    JointsCompare(selection[1], selection[0], '1', '2');
    SortedDescUnique(SortDesc(selection), selection);
  }

  lemma ThreeJointsDesc(sorted: seq<string>)
    requires sorted == ["joint3", "joint2", "joint1"]
    ensures SortedDesc(sorted)
  {
    JointsCompare(sorted[1], sorted[0], '2', '3');
    JointsCompare(sorted[2], sorted[1], '1', '2');
  }

  lemma ThreeJointsPermuted(selection: seq<string>, sorted: seq<string>)
    requires selection == ["joint1", "joint3", "joint2"] && sorted == ["joint3", "joint2", "joint1"]
    ensures multiset(selection) == multiset(sorted)
  {
    assert selection == [sorted[2]] + [sorted[0]] + [sorted[1]];
  }

  lemma ThreeJointsSorted(selection: seq<string>, sorted: seq<string>)
    requires selection == ["joint1", "joint3", "joint2"] && sorted == ["joint3", "joint2", "joint1"]
    ensures SortDesc(selection) == sorted
  {
    ThreeJointsPermuted(selection, sorted);
    ThreeJointsDesc(sorted);
    SortedDescUnique(SortDesc(selection), sorted);
  }

  /** The exact scan reads 5 from "arm_jnt_5". */
  lemma ExactScanSeesFive()
    ensures MaxIndex(ExactScan, "arm_jnt", ["arm_jnt_5"]) == Ok(5)
  {
    NameDigits(5, "arm_jnt_5");
    ExactIndexOfNewName("arm_jnt", 5);
    assert ["arm_jnt_5"][1..] == [];
  }

  /** The strip test matches no name at all for "arm_jnt", which does not end
      in an underscore, so the as-written scan stays at 0 in every scene,
      "arm_jnt_5" included. */
  lemma StripScanSeesNothing(scene: seq<string>)
    ensures MaxIndex(StripScan, "arm_jnt", scene) == Ok(0)
  {
    StripScanNeedsUnderscore("arm_jnt", scene);
  }

  /** In a scene where no name is "arm_jnt_" followed by digits, either scan
      finds the seeded 0. */
  lemma NoMatchScans(mode: ScanMode, composite: string, scene: seq<string>)
    requires composite == "arm_jnt"
    requires forall k :: 0 <= k < |scene| ==> ExactIndex(composite, scene[k]).None?
    ensures MaxIndex(mode, composite, scene) == Ok(0)
  {
    if mode == StripScan {
      StripScanSeesNothing(scene);
    }
  }

  /** A click whose base name, sorted selection and scan are known. */
  lemma ClickPlan(mode: ScanMode, meshText: string, button: string, selection: seq<string>, scene: seq<string>,
                  composite: string, sorted: seq<string>, m: int)
    requires meshText != "" && |selection| > 0
    requires ClickComposite(meshText, "", button, Initial) == composite
    requires SortDesc(selection) == sorted && MaxIndex(mode, composite, scene) == Ok(m)
    ensures RenamePlan(mode, meshText, "", button, Initial, selection, scene) == Ok(Assign(composite, sorted, m))
  {
    RenamePlanIsFinish(mode, meshText, "", button, Initial, selection, scene);
  }

  lemma AssignTwo(composite: string, a: string, b: string, m: int)
    ensures Assign(composite, [a, b], m) == [RenameCall(a, composite, m + 2), RenameCall(b, composite, m + 1)]
  {
  }

  lemma AssignThree(composite: string, a: string, b: string, c: string, m: int)
    ensures Assign(composite, [a, b, c], m)
         == [RenameCall(a, composite, m + 3), RenameCall(b, composite, m + 2), RenameCall(c, composite, m + 1)]
  {
  }

  /** The names the three clicks below give out. */
  lemma ScenarioNames()
    ensures NewName("arm_jnt", 1) == "arm_jnt_1" && NewName("arm_jnt", 2) == "arm_jnt_2"
    ensures NewName("arm_jnt", 3) == "arm_jnt_3"
    ensures NewName("arm_jnt", 6) == "arm_jnt_6" && NewName("arm_jnt", 7) == "arm_jnt_7"
  {
    NameDigits(1, "arm_jnt_1");
    NameDigits(2, "arm_jnt_2");
    NameDigits(3, "arm_jnt_3");
    NameDigits(6, "arm_jnt_6");
    NameDigits(7, "arm_jnt_7");
  }

  /** Three joints in a scene where no name is "arm_jnt_" followed by digits
      get indices 3, 2 and 1, the greatest selected name first: "joint3"
      becomes "arm_jnt_3". */
  lemma FreshSceneClick(mode: ScanMode, mesh: string, button: string, selection: seq<string>, scene: seq<string>)
    requires mesh == "arm" && button == "btn_jnt" && selection == ["joint1", "joint3", "joint2"]
    requires forall k :: 0 <= k < |scene| ==> ExactIndex("arm_jnt", scene[k]).None?
    ensures RenamePlan(mode, mesh, "", button, Initial, selection, scene)
         == Ok([RenameCall("joint3", "arm_jnt", 3), RenameCall("joint2", "arm_jnt", 2), RenameCall("joint1", "arm_jnt", 1)])
  {
    var sorted := ["joint3", "joint2", "joint1"];
    ArmJointComposite(mesh, button);
    NoMatchScans(mode, "arm_jnt", scene);
    ThreeJointsSorted(selection, sorted);
    ClickPlan(mode, mesh, button, selection, scene, "arm_jnt", sorted, 0);
    AssignThree("arm_jnt", "joint3", "joint2", "joint1", 0);
  }

  /** With "arm_jnt_5" in the scene the exact scan gives two new joints the
      indices 7 and 6. */
  lemma ExactClickAfterFive(mesh: string, button: string, selection: seq<string>)
    requires mesh == "arm" && button == "btn_jnt" && selection == ["joint2", "joint1"]
    ensures RenamePlan(ExactScan, mesh, "", button, Initial, selection, ["arm_jnt_5"])
         == Ok([RenameCall("joint2", "arm_jnt", 7), RenameCall("joint1", "arm_jnt", 6)])
  {
    ArmJointComposite(mesh, button);
    ExactScanSeesFive();
    TwoJointsSorted(selection);
    ClickPlan(ExactScan, mesh, button, selection, ["arm_jnt_5"], "arm_jnt", selection, 5);
    AssignTwo("arm_jnt", "joint2", "joint1", 5);
  }

  /** The same click with the scan as written gives them 2 and 1, the indices
      a scene without "arm_jnt_5" would give. */
  lemma StripClickAfterFive(mesh: string, button: string, selection: seq<string>)
    requires mesh == "arm" && button == "btn_jnt" && selection == ["joint2", "joint1"]
    ensures RenamePlan(StripScan, mesh, "", button, Initial, selection, ["arm_jnt_5"])
         == Ok([RenameCall("joint2", "arm_jnt", 2), RenameCall("joint1", "arm_jnt", 1)])
  {
    ArmJointComposite(mesh, button);
    StripScanSeesNothing(["arm_jnt_5"]);
    TwoJointsSorted(selection);
    ClickPlan(StripScan, mesh, button, selection, ["arm_jnt_5"], "arm_jnt", selection, 0);
    AssignTwo("arm_jnt", "joint2", "joint1", 0);
  }
}

=== FILE: wiring.dfy ===
/** The signal wiring of `__init__` (NameManagerController.py:26-33): which
    handlers a push button's click runs, chosen from its object name. */
module Wiring {
  import opened PyText

  datatype Handler = RenameHandler(button: string) | HierarchyHandler | MirrorHandler

  /** A push button takes part in renaming unless its name mentions the mirror
      or the hierarchy (line 29). */
  predicate IsNamingButton(button: string) {
    !Contains(button, "mirror") && !Contains(button, "hierarchy")
  }

  /** The handlers connected to `clicked` of the push button named `button`,
      in connection order (lines 28-33). */
  function Handlers(button: string): (hs: seq<Handler>)
    ensures RenameHandler(button) in hs <==> IsNamingButton(button)
    ensures HierarchyHandler in hs <==> button == "btn_create_hierarchy"
    ensures MirrorHandler in hs <==> button == "btn_mirror"
    ensures forall k :: 0 <= k < |hs| ==> hs[k].RenameHandler? ==> hs[k].button == button
  {
    (if IsNamingButton(button) then [RenameHandler(button)] else [])
    + (if button == "btn_create_hierarchy" then [HierarchyHandler] else [])
    + (if button == "btn_mirror" then [MirrorHandler] else [])
  }

  lemma ContainsAt(s: string, p: string, i: nat)
    requires i + |p| <= |s| && s[i..i + |p|] == p
    ensures Contains(s, p)
  {
    ContainsIff(s, p);
    assert OccursAt(s, p, i);
  }

  /** The two special buttons are kept out of renaming by the name test
      (their names reach the lemma as parameters, for the reason given in
      the Scenarios module). */
  lemma SpecialButtonsAreNotNaming(hierarchy: string, mirror: string)
    requires hierarchy == "btn_create_hierarchy" && mirror == "btn_mirror"
    ensures !IsNamingButton(hierarchy) && !IsNamingButton(mirror)
  {
    ContainsAt(hierarchy, "hierarchy", 11);
    ContainsAt(mirror, "mirror", 4);
  }

  /** A click runs at most one handler, so no button both renames and builds or
      mirrors. */
  lemma AtMostOneHandler(button: string)
    ensures |Handlers(button)| <= 1
  {
    SpecialButtonsAreNotNaming("btn_create_hierarchy", "btn_mirror");
  }

  /** A button whose name mentions "mirror" or "hierarchy" but is neither
      special button is connected to nothing. */
  lemma OtherSpecialNamesAreDead(button: string)
    requires !IsNamingButton(button) && button != "btn_create_hierarchy" && button != "btn_mirror"
    ensures Handlers(button) == []
  {
  }
}
